=== FILE: README.md ===
# Anime recommender: ranking, account store and password migration in Dafny

This project models three parts of a small anime recommender web app and proves
properties of them.

- **The recommendation query** (`recommender.py`). Each catalog item gets a
  `content` text made from its genre and description. A display name resolves
  to a catalog row. `recommend_anime` takes that row of the precomputed
  similarity matrix and stable-sorts it by score, descending. It drops the
  first ranked entry, keeps the next `top_n`, and turns each one into an
  `{Anime, Genre, Similarity Score}` record. The similarity row is an input
  sequence of `real` scores, so the ranking, tie-break and slicing rules can be
  stated exactly. The TF-IDF and cosine computation behind the scores is not
  modelled.
- **The account store** (`database.py`). It has three tables: users,
  favourites and password-reset tokens. The model treats them as an immutable
  `Store` value, and every function that writes becomes a transition
  returning the next store (and its result, if any); the read-only ones are
  functions of the store. bcrypt is an opaque `Hasher`, a
  pair of `hash` and `verify` functions. The lemmas assume only `Sound`: a
  digest is non-empty and verifies against its own text. The clock reading
  `int(time.time())` is the parameter `now`. The random token from
  `secrets.token_urlsafe` is a parameter the caller chooses.
- **The password migration script** (`migrate_passwords.py`). It is a loop over
  the user rows that hashes every present, not-yet-hashed password in place by
  `user_id` and counts how many it changed. passlib's `identify` and `hash` are
  parameters.

Files:

- `wrappers.dfy` holds `Option` and `Result`.
- `seqs.dfy` holds Python slice semantics and a first-match search.
- `ranking.dfy` holds the stable descending ranking, the neighbour slice, its
  corrected form and their properties.
- `recommender.dfy` holds the items, lookup, projection and the query.
- `database.dfy` holds the store and its transitions.
- `migration.dfy` holds the migration loop.

Three behaviours of the code are worth knowing before reading the contracts:

- `recommend_anime` promises in its docstring the `top_n` anime similar to
  the given one. It drops ranked position 0, though, which is the query item
  only when the query's own score is strictly the row maximum (see Findings).
- Loaded artifacts are never checked against the catalog. A query raises
  `IndexError` (`Recommend` returns `Err`) in only two cases. The first is a
  matrix with no row for the query item, at `cosine_sim[idx]`
  (recommender.py:49). The second is a row longer than the catalog whose
  ranking puts an out-of-range index into the slice, at `anime.iloc[i]`
  (recommender.py:57). A stale matrix of the right shape is served silently,
  in the code and in the model.
- Nothing in the code resolves duplicate display names (see Left out).

## Model

| member | source | states |
|---|---|---|
| Recommender.Content | recommender.py:9-12 | The content text is the genre, then one space, then the description, and a missing field counts as the empty string. Each part sits at a fixed position in the result. |
| Recommender.Lookup | recommender.py:37-47 | When display names are unique, the lookup returns `Some(i)` exactly when row `i` carries the name. It returns `None` exactly when no row does. |
| Recommender.Project | recommender.py:54-62 | The loop produces one record per chosen index, in ranked order. Record `k` takes its Anime and Genre from catalog row `i` and reports that row's score. The loop fails exactly when some chosen index is past the end of the catalog. |
| Recommender.Recommend | recommender.py:39-62 | An unknown name gives an empty result, not an error. A matrix that matches the catalog never raises. A raise can only happen for a known name. |
| Ranking.Rank | recommender.py:49-50 | The sorted ranking lists every catalog index exactly once. Scores are non-increasing, and equal scores appear in ascending index order, which is the stability of Python's `sorted(..., reverse=True)`. |
| Ranking.RankPrefix | recommender.py:49-50 | Insertion-sorting the first `n` indices gives an ordered permutation of `0..n-1`. |
| Ranking.Insert | recommender.py:50 | Inserting one index into an ordered ranking keeps it ordered and adds exactly that index. |
| Ranking.OrderedUnique | recommender.py:49-50 | Two orderings of the same indices by (score descending, index ascending) are equal, so the sort has only one possible result. |
| Ranking.RankCharacterised | recommender.py:49-50 | Any permutation of the indices sorted by score descending, with ties by index ascending, is the computed ranking. |
| Ranking.Neighbors | recommender.py:52 | The slice is ordered, holds valid indices and is shorter than the row. Its `k`-th entry is ranked entry `k+1`. |
| RankingProperties.NeighborsLength | recommender.py:49-52 | For a known item and `top_n >= 0`, the slice has `min(top_n, N-1)` entries. Python's negative slice ends give 0 entries for `top_n == -1` and `max(0, N + top_n)` for smaller `top_n`. An empty row gives nothing. |
| RankingProperties.NeighborsSorted | recommender.py:50-52 | Returned scores never increase. Equal scores keep ascending catalog order, and no index is returned twice. |
| RankingProperties.NeighborsOutrankRest | recommender.py:50-52 | Every item not returned, other than the dropped top-ranked entry, ranks behind every returned item. So its score is at most the lowest returned score. |
| RankingProperties.RankHeadIff | recommender.py:49-52 | An item heads the ranking exactly when its score is at least every score in the row and strictly above every score at an earlier index. |
| RankingProperties.StrictMaxNeverReturned | recommender.py:47-52 | If the query item's own score is strictly the row maximum, the query item is never returned. |
| RankingProperties.QueryReturnedWhenTiedEarlier | recommender.py:52 | Suppose exactly one earlier item ties the query item at the row maximum and `top_n >= 1`. Then the query item is returned and the earlier item is dropped. |
| RankingProperties.TiedQueryExample | recommender.py:52 | For scores `[1.0, 1.0]` and query item 1, the as-written slice returns `[1]`, the query item itself. The corrected one returns `[0]`. |
| RankingProperties.FlatRowReturnsQuery | recommender.py:49-52 | When every score in the row is equal, as for an all-zero row, a query item at index `1 .. top_n` is returned to itself. |
| Ranking.Without | recommender.py:52 | Removing one index from an ordered ranking keeps it ordered and removes exactly that index. |
| Ranking.NeighborsExcludingQuery | recommender.py:52 | The corrected neighbours are ordered valid indices and never include the query item. |
| RankingProperties.ExcludingQueryProperties | recommender.py:52 | The corrected neighbours never include the query item. For `top_n >= 0` there are `min(top_n, N-1)` of them. Every other item left out ranks behind all returned items. |
| RankingProperties.ExcludingQueryAgreesWhenQueryHeads | recommender.py:52 | For `top_n >= 0`, when the query item heads the ranking, the corrected and as-written slices are equal. |
| Recommender.RecommendExcludingQuery | recommender.py:39-62 | In the corrected query, an unknown name gives an empty result and a matching matrix never raises. |
| RecommenderProperties.StaleMatrixRaises | recommender.py:19-22 | The loaded matrix gets no dimension check. If it has no row for the query item, the query raises `IndexError`. |
| RecommenderProperties.RecommendRanked | recommender.py:47-62 | For a known item, a matching matrix and `top_n >= 0`, the query succeeds with `min(top_n, N-1)` records. Record `k` is built from neighbour `k`. Scores are non-increasing, and equal scores appear in ascending catalog order. |
| RecommenderProperties.RecommendOmitsStrictMaxQuery | recommender.py:47-62 | When the query item's self-score is strictly the row maximum, no record names the query item. |
| RecommenderProperties.RecommendExcludingQueryRanked | recommender.py:47-62 | For a known item, a matching matrix and `top_n >= 0`, the corrected query returns `min(top_n, N-1)` records. None of them names the query item, and their scores are non-increasing. |
| RecommenderProperties.DuplicateContentExample | recommender.py:52 | Take two items that score 1.0 against each other. The as-written query for the second item returns the second item itself. The corrected query returns the first. |
| Database.FindUser | database.py:88-92 | The username lookup finds a row with that name, or reports that none exists. Under the UNIQUE constraint it finds the only such row. |
| Database.AnswerDigest | database.py:68-71 | A security answer is stored as a digest only when it is non-empty. Otherwise it is stored as NULL, and a stored digest verifies against the answer. |
| Database.CreateUser | database.py:63-81 | Creation succeeds exactly when the username is new. On failure nothing changes. On success exactly one row is appended with the next id, the name and the question, and its password digest verifies against the password. Favourites and tokens are unchanged, and the store invariant is kept. |
| Database.LoginUser | database.py:84-97 | Login returns the user's id exactly when the name exists and the password verifies against its digest. Otherwise it returns `None`. |
| Database.CreatePasswordResetToken | database.py:105-129 | An unknown user gives `None` and stores nothing. A token already present raises. A known user with a fresh token is always issued that token: exactly that key is added, for the named user, expiring at `now + expiry_seconds`. Users and favourites are unchanged. |
| Database.VerifyResetToken | database.py:132-147 | Verification returns the token's user exactly when the token exists and `now <= expires_at`. |
| Database.ResetPassword | database.py:150-163 | In a valid store, the reset succeeds exactly when the token verifies. On failure nothing changes. On success the token is deleted, only rows with the token's user id change, they change only in the password, and the new digest verifies. |
| Database.AddFavorite | database.py:168-181 | Adding a favourite adds the `(user, anime)` key. An existing pair keeps its name, a new pair gets the given name, and nothing else changes. |
| Database.GetFavorites | database.py:184-196 | The result holds exactly the `(anime_id, anime_name)` pairs stored for the user. |
| Database.RemoveFavorite | database.py:233-243 | Removal deletes only the key matching both the user and the anime, and nothing else changes. |
| Database.GetSecurityQuestion | database.py:199-205 | The result is the user's question, or `None` for an unknown user or a NULL or empty question. It is never the empty string. |
| Database.VerifySecurityAnswer | database.py:208-219 | The result is false for an unknown user or a NULL or empty stored answer. Otherwise it is whether the answer verifies. |
| Database.ResetPasswordWithSecurityAnswer | database.py:222-231 | The reset succeeds exactly when the answer verifies. Only the password of rows with that username changes, and reset tokens and favourites are untouched. |
| DatabaseProperties.EmptyStoreValid | database.py:14-58 | Freshly created tables satisfy the store invariant. |
| DatabaseProperties.UsernameTakenAfterCreate | database.py:22 | After a username is registered, registering it again fails and changes nothing. |
| DatabaseProperties.CreateThenLogin | database.py:63-97 | A new account logs in with its password and gets the id it was assigned. |
| DatabaseProperties.ResetTokenLifetime | database.py:112-147 | For a known user and a fresh token, the token is issued, and it verifies for that user exactly up to and including `now + expiry_seconds`. |
| DatabaseProperties.ResetTokenSingleUse | database.py:150-163 | After a successful reset, the same token is refused at any time and changes nothing. |
| DatabaseProperties.ResetThenLogin | database.py:150-163 | After a reset with a valid token, the token's user logs in with the new password. |
| DatabaseProperties.AddFavoriteIdempotent | database.py:173-176 | Adding the same favourite twice is the same as adding it once, and the first name is kept. |
| DatabaseProperties.FavoritesAfterAdd | database.py:173-196 | After an add, the user's favourites gain the new pair only if it was absent. Other users' favourites do not change. |
| DatabaseProperties.FavoritesAfterRemove | database.py:237-240 | After a remove, the user's favourites lose exactly that anime. Other users' favourites do not change. |
| DatabaseProperties.SecurityAnswerRecovery | database.py:199-231 | Take an account created with a question and a non-empty answer. It shows its question and accepts that answer. After the answer-based reset it logs in with the new password, and its reset tokens are untouched. |
| Migration.IsHashed | migrate_passwords.py:15-20 | The result is true only when `identify` names a scheme. An exception from `identify` gives false. |
| Migration.UpdatePassword | migrate_passwords.py:38 | The update sets the password of the rows with that `user_id` and leaves every other row as it was. |
| Migration.Migrate | migrate_passwords.py:23-44 | NULL passwords and already-hashed passwords are left alone. Every other row's password becomes the hash of the old one, and no other column changes. The count is the number of such rows. |
| Migration.SecondMigrationIsNoOp | migrate_passwords.py:30-39 | If `identify` recognises every digest `hash` makes, a second run finds nothing to hash and changes nothing. |

## Left out

- Vectorising and scoring (recommender.py:24-26, 29-31) are left out. TF-IDF and cosine similarity are library floating-point computations, so the similarity row is an input.
- Score rounding (recommender.py:59) is left out. It is presentation only, and records carry the unrounded score.
- Artifact load and dump and the file-existence check (recommender.py:14-35) are file I/O and are left out. Only the two `IndexError` cases of a mismatched matrix are modelled: no row for the query item, and a ranked index past the end of the catalog. A same-shape stale matrix is served like any other. A dump failure in the `except` branch (line 27) propagates, while one in the `else` branch (lines 32-35) is swallowed. The model does not distinguish these.
- Recommender.Lookup: requires unique display names. With a duplicated name the source's index lookup returns a series rather than one position, and the query fails. There is no first-occurrence rule to model.
- Recommender.Recommend: requires unique display names, for the same reason.
- Recommender.RecommendExcludingQuery: requires unique display names, for the same reason.
- Recommender.Recommend: maps both of the source's empty results to `Ok([])`. An unknown name returns an empty DataFrame with the three result columns (recommender.py:45). A known name with no matches, when `top_n` is 0 or -1, when `top_n <= -N`, or when the query's row has at most one entry, returns `pd.DataFrame([])`, which has no columns at all (recommender.py:62). The model carries rows, not column schemas.
- Default arguments are not modelled: `top_n=5` (recommender.py:39) and `expiry_seconds=3600` (database.py:105) are always passed explicitly. `expiry_seconds` is an int; the `int()` truncation of a float argument (database.py:120) is not modelled.
- NaN scores are not modelled. Scores are `real`, so every pair of scores is comparable.
- The app layer (app.py) is not part of this model. That covers the Streamlit UI, the remote metadata fetch and cache, and the substring search.
- SQLite connections, commits and the `ALTER TABLE` schema upgrade in `init_db` (database.py:29-35) are left out. `EmptyStore` stands for freshly created tables.
- bcrypt salting is not modelled. `hash` is a deterministic function parameter, where real digests differ on every call. Only `Sound` is assumed of it.
- Database.LoginUser: does not model an exception from `verify` on a malformed stored digest. Such an exception propagates from `login_user`, but in the model `verify` is total.
- Database.CreateUser: usernames and passwords are strings. A `None` password, which makes the source raise, is not modelled.
- Database.AddFavorite: the catch-all that prints and swallows database errors has no counterpart, because the model's insert cannot fail.
- Database.GetFavorites: returns a set. SQLite's row order is unspecified without `ORDER BY`, so the order of the returned rows is not modelled.
- The migration's progress messages, its commit and its connection handling are left out.

## Findings

| source | as written | input that shows it | evidently intended | confidence | as-written member | corrected member |
|---|---|---|---|---|---|---|
| recommender.py:52 | The slice drops ranked position 0, whichever item that is, and assumes it is the query item. | Take scores `[1.0, 1.0]`, for two items with identical content, and query item 1. Item 0 ranks first and is dropped, so item 1 is recommended to itself. An all-zero row, for an item whose text has no vocabulary terms, ranks in catalog order, so a query at catalog index `1 .. top_n` is returned to itself (`FlatRowReturnsQuery`). At any other index only item 0 is wrongly dropped. | Leave out the query item `idx` itself, then take `top_n`. This is the intended reading only for `top_n >= 0`: for negative `top_n` the corrected `[:top_n]` also changes the count, so with `top_n = -1` the source returns nothing while the corrected query returns N-2 items | medium, not executed | RankingProperties.QueryReturnedWhenTiedEarlier | Ranking.NeighborsExcludingQuery |

=== FILE: database.dfy ===
/** The account, favourites and password-reset store, as a state machine over
    its three SQLite tables. Every operation is a function from a store to the
    next store and the value the Python function returns. bcrypt is an opaque
    hash/verify pair, the wall clock is the parameter `now`, and the random
    reset token is a parameter the caller picks. */
module Database {
  import opened Wrappers
  import opened Seqs

  type UserId = int
  type AnimeId = int
  type Token = string
  type Digest = string

  /** passlib's bcrypt context, seen only through its two operations. */
  datatype Hasher = Hasher(hash: string -> Digest, verify: (string, Digest) -> bool)

  /** The facts about bcrypt the store relies on: a digest is never the empty
      string, and it verifies against the text it was made from. */
  ghost predicate Sound(h: Hasher) {
    forall p: string :: h.hash(p) != "" && h.verify(p, h.hash(p))
  }

  /** A row of `users`; `question` is stored as given, `answer` as a digest. */
  datatype UserRow = UserRow(id: UserId, username: string, password: Digest,
                             question: Option<string>, answer: Option<Digest>)

  /** A row of `password_resets`, keyed by its token. */
  datatype ResetRow = ResetRow(userId: UserId, expiresAt: int)

  /** The database. `users` is in rowid order; `nextId` is the next
      AUTOINCREMENT value; `favorites` is keyed by its UNIQUE(user_id,
      anime_id) pair and holds `anime_name`; `resets` is keyed by token. */
  datatype Store = Store(users: seq<UserRow>, nextId: UserId,
                         favorites: map<(UserId, AnimeId), string>,
                         resets: map<Token, ResetRow>)

  /** The state after a call, and what the call returned. */
  datatype Step<T> = Step(next: Store, out: T)

  /** A constraint violation that the calling code does not catch. */
  datatype DbError = IntegrityError

  /** The tables `init_db` creates on a fresh database. */
  const EmptyStore: Store := Store([], 1, map[], map[])

  /** What the schema guarantees: AUTOINCREMENT ids start at 1 and stay below
      the next one, user ids are a primary key, usernames are UNIQUE, and reset
      rows name an id that has been handed out. */
  predicate Valid(s: Store) {
    && s.nextId >= 1
    && (forall i :: 0 <= i < |s.users| ==> 1 <= s.users[i].id < s.nextId)
    && (forall i, j :: 0 <= i < j < |s.users| ==> s.users[i].id != s.users[j].id)
    && (forall i, j :: 0 <= i < j < |s.users| ==> s.users[i].username != s.users[j].username)
    && (forall t :: t in s.resets ==> 1 <= s.resets[t].userId < s.nextId)
  }

  /** `SELECT ... FROM users WHERE username=?` followed by `fetchone()`. */
  function FindUser(s: Store, username: string): (r: Option<nat>)
    ensures r.Some? ==> r.value < |s.users| && s.users[r.value].username == username
    ensures r.None? <==> forall i :: 0 <= i < |s.users| ==> s.users[i].username != username
    ensures Valid(s) ==> forall i :: 0 <= i < |s.users| && s.users[i].username == username ==> r == Some(i)
  {
    FirstIndex(s.users, (u: UserRow) => u.username == username)
  }

  /** `UPDATE users SET password=? WHERE <matches>`. */
  function SetPasswordWhere(users: seq<UserRow>, matches: UserRow -> bool, digest: Digest): (r: seq<UserRow>)
    ensures |r| == |users|
    ensures forall i :: 0 <= i < |users| && !matches(users[i]) ==> r[i] == users[i]
    ensures forall i :: 0 <= i < |users| && matches(users[i]) ==> r[i] == users[i].(password := digest)
  {
    seq(|users|, i requires 0 <= i < |users| =>
      if matches(users[i]) then users[i].(password := digest) else users[i])
  }

  // ---------- users ----------

  /** The stored security answer: hashed when it is non-empty, NULL otherwise
      (`if security_answer:`). */
  function AnswerDigest(h: Hasher, answer: Option<string>): (r: Option<Digest>)
    ensures r.Some? <==> answer.Some? && answer.value != ""
    ensures Sound(h) && r.Some? ==> h.verify(answer.value, r.value)
  {
    if answer.Some? && answer.value != "" then Some(h.hash(answer.value)) else None
  }

  /** `create_user`: an INSERT that the UNIQUE constraint on `username` turns
      into `False` for a name already taken. */
  function CreateUser(h: Hasher, s: Store, username: string, password: string,
                      question: Option<string>, answer: Option<string>): (r: Step<bool>)
    ensures r.out <==> forall i :: 0 <= i < |s.users| ==> s.users[i].username != username
    ensures !r.out ==> r.next == s
    ensures r.out ==>
      && |r.next.users| == |s.users| + 1
      && r.next.users[..|s.users|] == s.users
      && r.next.users[|s.users|].id == s.nextId
      && r.next.users[|s.users|].username == username
      && r.next.users[|s.users|].question == question
      && (Sound(h) ==> h.verify(password, r.next.users[|s.users|].password))
      && r.next.users[|s.users|].answer == AnswerDigest(h, answer)
    ensures r.next.favorites == s.favorites && r.next.resets == s.resets
    ensures Valid(s) ==> Valid(r.next)
  {
    if FindUser(s, username).Some? then Step(s, false)
    else
      var row := UserRow(s.nextId, username, h.hash(password), question, AnswerDigest(h, answer));
      Step(s.(users := s.users + [row], nextId := s.nextId + 1), true)
  }

  /** `login_user`: the user's id when the name exists and the password
      verifies against its stored digest. */
  function LoginUser(h: Hasher, s: Store, username: string, password: string): (r: Option<UserId>)
    ensures (forall i :: 0 <= i < |s.users| ==> s.users[i].username != username) ==> r.None?
    ensures r.Some? ==> exists i :: 0 <= i < |s.users| && s.users[i].username == username &&
                                    s.users[i].id == r.value && h.verify(password, s.users[i].password)
    ensures Valid(s) ==> forall i :: 0 <= i < |s.users| && s.users[i].username == username ==>
      (r == Some(s.users[i].id) <==> h.verify(password, s.users[i].password))
  {
    match FindUser(s, username)
    case None => None
    case Some(i) => if h.verify(password, s.users[i].password) then Some(s.users[i].id) else None
  }

  // ---------- password reset tokens ----------

  /** `create_password_reset_token`: for a known user, store `token` expiring
      `expirySeconds` after `now`. A token already in the table violates its
      PRIMARY KEY, which the function does not catch. */
  function CreatePasswordResetToken(s: Store, username: string, token: Token,
                                    now: int, expirySeconds: int): (r: Step<Result<Option<Token>, DbError>>)
    ensures FindUser(s, username).None? ==> r == Step(s, Ok(None))
    ensures FindUser(s, username).Some? && token in s.resets ==> r == Step(s, Err(IntegrityError))
    ensures FindUser(s, username).Some? && token !in s.resets ==> r.out == Ok(Some(token))
    ensures r.out.Ok? && r.out.value.Some? ==>
      && r.out.value.value == token
      && token !in s.resets
      && r.next.resets.Keys == s.resets.Keys + {token}
      && r.next.resets[token].expiresAt == now + expirySeconds
      && (exists i :: 0 <= i < |s.users| && s.users[i].username == username
                      && r.next.resets[token].userId == s.users[i].id)
      && (forall t :: t in s.resets ==> r.next.resets[t] == s.resets[t])
    ensures r.next.users == s.users && r.next.nextId == s.nextId && r.next.favorites == s.favorites
    ensures Valid(s) ==> Valid(r.next)
  {
    match FindUser(s, username)
    case None => Step(s, Ok(None))
    case Some(i) =>
      if token in s.resets then Step(s, Err(IntegrityError))
      else Step(s.(resets := s.resets[token := ResetRow(s.users[i].id, now + expirySeconds)]), Ok(Some(token)))
  }

  /** `verify_reset_token`: the token's user while `now` has not passed its
      expiry time; the expiry second itself still counts. */
  function VerifyResetToken(s: Store, token: Token, now: int): (r: Option<UserId>)
    ensures r.Some? <==> token in s.resets && now <= s.resets[token].expiresAt
    ensures r.Some? ==> r.value == s.resets[token].userId
  {
    if token in s.resets && now <= s.resets[token].expiresAt then Some(s.resets[token].userId)
    else None
  }

  /** `reset_password`: with a valid token, set that user's password and delete
      the token; otherwise change nothing. The guard is Python's `if not
      user_id`, so an id of 0 would be refused too. */
  function ResetPassword(h: Hasher, s: Store, token: Token, newPassword: string, now: int): (r: Step<bool>)
    ensures r.out ==> VerifyResetToken(s, token, now).Some?
    ensures Valid(s) ==> (r.out <==> VerifyResetToken(s, token, now).Some?)
    ensures !r.out ==> r.next == s
    ensures r.out ==> r.next.resets == s.resets - {token}
    ensures r.out ==> |r.next.users| == |s.users| && forall i :: 0 <= i < |s.users| ==>
      && r.next.users[i].(password := s.users[i].password) == s.users[i]
      && (s.users[i].id != s.resets[token].userId ==> r.next.users[i] == s.users[i])
      && (s.users[i].id == s.resets[token].userId && Sound(h) ==> h.verify(newPassword, r.next.users[i].password))
    ensures r.next.favorites == s.favorites && r.next.nextId == s.nextId
    ensures Valid(s) ==> Valid(r.next)
  {
    var userId := VerifyResetToken(s, token, now);
    if userId.None? || userId.value == 0 then Step(s, false)
    else
      var users := SetPasswordWhere(s.users, (u: UserRow) => u.id == userId.value, h.hash(newPassword));
      Step(s.(users := users, resets := s.resets - {token}), true)
  }

  // ---------- favourites ----------

  /** `add_favorite`: `INSERT OR IGNORE`, so a pair already stored keeps its
      original name. */
  function AddFavorite(s: Store, userId: UserId, animeId: AnimeId, animeName: string): (r: Store)
    ensures r.favorites.Keys == s.favorites.Keys + {(userId, animeId)}
    ensures forall k :: k in s.favorites ==> r.favorites[k] == s.favorites[k]
    ensures (userId, animeId) !in s.favorites ==> r.favorites[(userId, animeId)] == animeName
    ensures r.users == s.users && r.nextId == s.nextId && r.resets == s.resets
  {
    if (userId, animeId) in s.favorites then s
    else s.(favorites := s.favorites[(userId, animeId) := animeName])
  }

  /** `get_favorites`: the `(anime_id, anime_name)` pairs stored for a user. */
  function GetFavorites(s: Store, userId: UserId): (r: set<(AnimeId, string)>)
    ensures forall a, n :: (a, n) in r <==> (userId, a) in s.favorites && s.favorites[(userId, a)] == n
  {
    var r := set k | k in s.favorites && k.0 == userId :: (k.1, s.favorites[k]);
    assert forall a, n :: (userId, a) in s.favorites && s.favorites[(userId, a)] == n ==> (a, n) in r by {
      forall a, n | (userId, a) in s.favorites && s.favorites[(userId, a)] == n
        ensures (a, n) in r
      {
        var k := (userId, a);
        assert k in s.favorites && k.0 == userId;
      }
    }
    r
  }

  /** `remove_favorite`: delete the row matching both the user and the anime. */
  function RemoveFavorite(s: Store, userId: UserId, animeId: AnimeId): (r: Store)
    ensures r.favorites.Keys == s.favorites.Keys - {(userId, animeId)}
    ensures forall k :: k in r.favorites ==> r.favorites[k] == s.favorites[k]
    ensures r.users == s.users && r.nextId == s.nextId && r.resets == s.resets
  {
    s.(favorites := s.favorites - {(userId, animeId)})
  }

  // ---------- security question ----------

  /** `get_security_question`: the user's question, or `None` for an unknown
      user and for a question that is NULL or empty. */
  function GetSecurityQuestion(s: Store, username: string): (r: Option<string>)
    ensures r.Some? ==> r.value != ""
    ensures (forall i :: 0 <= i < |s.users| ==> s.users[i].username != username) ==> r.None?
    ensures Valid(s) ==> forall i :: 0 <= i < |s.users| && s.users[i].username == username ==>
      (r.Some? <==> s.users[i].question.Some? && s.users[i].question.value != "") &&
      (r.Some? ==> r.value == s.users[i].question.value)
  {
    match FindUser(s, username)
    case None => None
    case Some(i) =>
      if s.users[i].question.Some? && s.users[i].question.value != "" then s.users[i].question else None
  }

  /** `verify_security_answer`: false for an unknown user or a NULL or empty
      stored answer, otherwise whether the answer verifies. */
  function VerifySecurityAnswer(h: Hasher, s: Store, username: string, answer: string): (r: bool)
    ensures (forall i :: 0 <= i < |s.users| ==> s.users[i].username != username) ==> !r
    ensures Valid(s) ==> forall i :: 0 <= i < |s.users| && s.users[i].username == username ==>
      (r <==> s.users[i].answer.Some? && s.users[i].answer.value != ""
              && h.verify(answer, s.users[i].answer.value))
  {
    match FindUser(s, username)
    case None => false
    case Some(i) =>
      s.users[i].answer.Some? && s.users[i].answer.value != "" && h.verify(answer, s.users[i].answer.value)
  }

  /** `reset_password_with_security_answer`: when the answer verifies, set the
      password of the rows with that username; never touches reset tokens. */
  function ResetPasswordWithSecurityAnswer(h: Hasher, s: Store, username: string, answer: string,
                                           newPassword: string): (r: Step<bool>)
    ensures r.out == VerifySecurityAnswer(h, s, username, answer)
    ensures !r.out ==> r.next == s
    ensures r.out ==> |r.next.users| == |s.users| && forall i :: 0 <= i < |s.users| ==>
      && r.next.users[i].(password := s.users[i].password) == s.users[i]
      && (s.users[i].username != username ==> r.next.users[i] == s.users[i])
      && (s.users[i].username == username && Sound(h) ==> h.verify(newPassword, r.next.users[i].password))
    ensures r.next.resets == s.resets && r.next.favorites == s.favorites && r.next.nextId == s.nextId
    ensures Valid(s) ==> Valid(r.next)
  {
    if !VerifySecurityAnswer(h, s, username, answer) then Step(s, false)
    else
      var users := SetPasswordWhere(s.users, (u: UserRow) => u.username == username, h.hash(newPassword));
      Step(s.(users := users), true)
  }
}

module DatabaseProperties {
  import opened Wrappers
  import opened Database

  lemma EmptyStoreValid()
    ensures Valid(EmptyStore)
  {
  }

  /** Usernames stay unique: once a name is registered, registering it again
      fails and leaves the store as it was. */
  lemma UsernameTakenAfterCreate(h: Hasher, s: Store, username: string, password: string,
                                 question: Option<string>, answer: Option<string>,
                                 password2: string, question2: Option<string>, answer2: Option<string>)
    requires CreateUser(h, s, username, password, question, answer).out
    ensures var s1 := CreateUser(h, s, username, password, question, answer).next;
      CreateUser(h, s1, username, password2, question2, answer2) == Step(s1, false)
  {
    var s1 := CreateUser(h, s, username, password, question, answer).next;
    assert s1.users[|s.users|].username == username;
  }

  /** A freshly created account can log in with the password it was created
      with, and gets the id it was assigned. */
  lemma CreateThenLogin(h: Hasher, s: Store, username: string, password: string,
                        question: Option<string>, answer: Option<string>)
    requires Sound(h) && Valid(s)
    requires CreateUser(h, s, username, password, question, answer).out
    ensures LoginUser(h, CreateUser(h, s, username, password, question, answer).next, username, password)
            == Some(s.nextId)
  {
    var s1 := CreateUser(h, s, username, password, question, answer).next;
    var n := |s.users|;
    assert s1.users[n].username == username && s1.users[n].id == s.nextId;
    assert h.verify(password, s1.users[n].password);
  }

  /** A known user with a fresh token is issued that token, and it verifies,
      for that user, up to and including `now + expiry_seconds`, and not a
      second later. */
  lemma ResetTokenLifetime(s: Store, username: string, token: Token, issuedAt: int,
                           expirySeconds: int, now: int)
    requires FindUser(s, username).Some? && token !in s.resets
    ensures CreatePasswordResetToken(s, username, token, issuedAt, expirySeconds).out == Ok(Some(token))
    ensures var s1 := CreatePasswordResetToken(s, username, token, issuedAt, expirySeconds).next;
      && (VerifyResetToken(s1, token, now).Some? <==> now <= issuedAt + expirySeconds)
      && (VerifyResetToken(s1, token, now).Some? ==>
            exists i :: 0 <= i < |s.users| && s.users[i].username == username &&
                        VerifyResetToken(s1, token, now).value == s.users[i].id)
  {
  }

  /** A reset token works once: after a successful reset the same token is
      refused and changes nothing, whatever the time. */
  lemma ResetTokenSingleUse(h: Hasher, s: Store, token: Token, newPassword: string, now: int,
                            password2: string, now2: int)
    requires ResetPassword(h, s, token, newPassword, now).out
    ensures var s1 := ResetPassword(h, s, token, newPassword, now).next;
      ResetPassword(h, s1, token, password2, now2) == Step(s1, false)
  {
    var s1 := ResetPassword(h, s, token, newPassword, now).next;
    assert token !in s1.resets;
  }

  /** After a reset with a valid token, the token's user logs in with the new
      password. */
  lemma ResetThenLogin(h: Hasher, s: Store, token: Token, newPassword: string, now: int, i: nat)
    requires Sound(h) && Valid(s)
    requires ResetPassword(h, s, token, newPassword, now).out
    requires i < |s.users| && s.users[i].id == s.resets[token].userId
    ensures LoginUser(h, ResetPassword(h, s, token, newPassword, now).next, s.users[i].username, newPassword)
            == Some(s.users[i].id)
  {
    var s1 := ResetPassword(h, s, token, newPassword, now).next;
    assert s1.users[i].username == s.users[i].username && s1.users[i].id == s.users[i].id;
    assert Valid(s1);
  }

  /** Adding a favourite twice is the same as adding it once; the first name
      stays. */
  lemma AddFavoriteIdempotent(s: Store, userId: UserId, animeId: AnimeId, name1: string, name2: string)
    ensures AddFavorite(AddFavorite(s, userId, animeId, name1), userId, animeId, name2)
            == AddFavorite(s, userId, animeId, name1)
  {
  }

  /** What `get_favorites` sees after an `add_favorite`: the new pair for that
      user if it was not yet stored, nothing new otherwise, and no change for
      any other user. */
  lemma FavoritesAfterAdd(s: Store, userId: UserId, animeId: AnimeId, name: string, viewer: UserId)
    ensures GetFavorites(AddFavorite(s, userId, animeId, name), viewer) ==
      if viewer == userId && (userId, animeId) !in s.favorites
      then GetFavorites(s, viewer) + {(animeId, name)}
      else GetFavorites(s, viewer)
  {
    var before, after := GetFavorites(s, viewer), GetFavorites(AddFavorite(s, userId, animeId, name), viewer);
    if viewer == userId && (userId, animeId) !in s.favorites {
      assert after == before + {(animeId, name)};
    } else {
      assert after == before;
    }
  }

  /** What `get_favorites` sees after a `remove_favorite`: that user's pairs
      minus the removed anime, and no change for any other user. */
  lemma FavoritesAfterRemove(s: Store, userId: UserId, animeId: AnimeId, viewer: UserId)
    ensures GetFavorites(RemoveFavorite(s, userId, animeId), viewer) ==
      if viewer == userId
      then set p | p in GetFavorites(s, viewer) && p.0 != animeId
      else GetFavorites(s, viewer)
  {
    var before, after := GetFavorites(s, viewer), GetFavorites(RemoveFavorite(s, userId, animeId), viewer);
    if viewer == userId {
      assert after == set p | p in before && p.0 != animeId;
    } else {
      assert after == before;
    }
  }

  /** The security-question path end to end: an account created with a
      non-empty answer shows its question, accepts that answer, and after the
      reset logs in with the new password; reset tokens are untouched. */
  lemma SecurityAnswerRecovery(h: Hasher, s: Store, username: string, password: string,
                               question: string, answer: string, newPassword: string)
    requires Sound(h) && Valid(s) && question != "" && answer != ""
    requires CreateUser(h, s, username, password, Some(question), Some(answer)).out
    ensures var s1 := CreateUser(h, s, username, password, Some(question), Some(answer)).next;
      var r := ResetPasswordWithSecurityAnswer(h, s1, username, answer, newPassword);
      && GetSecurityQuestion(s1, username) == Some(question)
      && r.out
      && r.next.resets == s1.resets
      && LoginUser(h, r.next, username, newPassword) == Some(s.nextId)
  {
    var s1 := CreateUser(h, s, username, password, Some(question), Some(answer)).next;
    var n := |s.users|;
    assert s1.users[n].username == username && s1.users[n].id == s.nextId;
    assert Valid(s1);
    var r := ResetPasswordWithSecurityAnswer(h, s1, username, answer, newPassword);
    assert r.out;
    assert r.next.users[n].username == username && r.next.users[n].id == s.nextId;
    assert Valid(r.next);
  }
}

=== FILE: migration.dfy ===
/** The one-off script that finds plaintext passwords in `users` and replaces
    them with bcrypt digests. passlib's `identify` and `hash` are parameters;
    the script's progress messages are not modelled. */
module Migration {
  import opened Wrappers

  /** What passlib's `identify` makes of a stored password: the name of a
      recognised hash scheme, no match, or an exception. */
  datatype Identification = Scheme(name: string) | Unrecognised | Raises

  /** A row of `users` with all of its columns, as the script reads it from a
      database of any age. Unlike the account store's rows, whose password is
      always a digest written by account creation, `password` here may be NULL
      or plaintext, which is exactly what the script has to tell apart. */
  datatype Row = Row(userId: int, username: string, password: Option<string>,
                     question: Option<string>, answer: Option<string>)

  /** `is_hashed`: true only when `identify` names a scheme; an exception
      from `identify` reads as "not hashed". */
  function IsHashed(identify: string -> Identification, pw: string): (r: bool)
    ensures identify(pw).Scheme? ==> r
    ensures identify(pw).Unrecognised? ==> !r
    ensures identify(pw).Raises? ==> !r
  {
    identify(pw).Scheme?
  }

  /** A row the loop rewrites: a password that is present and not recognised
      as a hash. */
  predicate NeedsHash(identify: string -> Identification, row: Row) {
    row.password.Some? && !IsHashed(identify, row.password.value)
  }

  /** The row as the migration leaves it. */
  function MigratedRow(identify: string -> Identification, hash: string -> string, row: Row): Row {
    if NeedsHash(identify, row) then row.(password := Some(hash(row.password.value))) else row
  }

  function MigrateAll(identify: string -> Identification, hash: string -> string, table: seq<Row>): (r: seq<Row>)
    ensures |r| == |table|
    ensures forall i :: 0 <= i < |table| ==> r[i] == MigratedRow(identify, hash, table[i])
  {
    seq(|table|, i requires 0 <= i < |table| => MigratedRow(identify, hash, table[i]))
  }

  /** The number of rows that need hashing. */
  function CountNeedsHash(identify: string -> Identification, rows: seq<Row>): nat {
    if rows == [] then 0
    else CountNeedsHash(identify, rows[..|rows| - 1]) + (if NeedsHash(identify, rows[|rows| - 1]) then 1 else 0)
  }

  /** `user_id` is the primary key. */
  predicate UniqueIds(table: seq<Row>) {
    forall i, j :: 0 <= i < j < |table| ==> table[i].userId != table[j].userId
  }

  /** `UPDATE users SET password=? WHERE user_id=?`. */
  function UpdatePassword(table: seq<Row>, userId: int, digest: string): (r: seq<Row>)
    ensures |r| == |table|
    ensures forall i :: 0 <= i < |table| && table[i].userId != userId ==> r[i] == table[i]
    ensures forall i :: 0 <= i < |table| && table[i].userId == userId ==>
      r[i] == table[i].(password := Some(digest))
  {
    seq(|table|, i requires 0 <= i < |table| =>
      if table[i].userId == userId then table[i].(password := Some(digest)) else table[i])
  }

  /** `migrate`: walk the rows read at the start; skip NULL passwords and
      passwords already recognised as hashes; hash every other one in place by
      its `user_id`, counting as it goes. */
  method Migrate(identify: string -> Identification, hash: string -> string, table: seq<Row>)
    returns (result: seq<Row>, migrated: nat)
    requires UniqueIds(table)
    ensures |result| == |table|
    ensures forall i :: 0 <= i < |table| ==>
      result[i].(password := table[i].password) == table[i]
    ensures forall i :: 0 <= i < |table| && table[i].password.None? ==> result[i] == table[i]
    ensures forall i :: 0 <= i < |table| && table[i].password.Some? && IsHashed(identify, table[i].password.value) ==>
      result[i] == table[i]
    ensures forall i :: 0 <= i < |table| && NeedsHash(identify, table[i]) ==>
      result[i].password == Some(hash(table[i].password.value))
    ensures migrated == CountNeedsHash(identify, table)
    ensures result == MigrateAll(identify, hash, table)
  {
    var rows := table;
    result := table;
    migrated := 0;
    var k := 0;
    while k < |rows|
      invariant 0 <= k <= |rows|
      invariant |result| == |rows|
      invariant forall j :: 0 <= j < k ==> result[j] == MigratedRow(identify, hash, rows[j])
      invariant forall j :: k <= j < |rows| ==> result[j] == rows[j]
      invariant migrated == CountNeedsHash(identify, rows[..k])
    {
      var row := rows[k];
      assert rows[..k + 1][..k] == rows[..k];
      if row.password.Some? && !IsHashed(identify, row.password.value) {
        var digest := hash(row.password.value);
        forall j | 0 <= j < |result| && j != k
          ensures result[j].userId != row.userId
        {
          assert result[j].userId == rows[j].userId;
        }
        result := UpdatePassword(result, row.userId, digest);
        migrated := migrated + 1;
      }
      k := k + 1;
    }
    assert rows[..k] == table;
  }

  /** Once every digest `hash` produces is recognised by `identify`, a second
      run finds nothing to do: nothing needs hashing and every row stays. */
  lemma {:induction false} SecondMigrationIsNoOp(identify: string -> Identification, hash: string -> string,
                                                 table: seq<Row>)
    requires forall p :: identify(hash(p)).Scheme?
    ensures CountNeedsHash(identify, MigrateAll(identify, hash, table)) == 0
    ensures MigrateAll(identify, hash, MigrateAll(identify, hash, table)) == MigrateAll(identify, hash, table)
    decreases |table|
  {
    var once := MigrateAll(identify, hash, table);
    if table != [] {
      var n := |table| - 1;
      SecondMigrationIsNoOp(identify, hash, table[..n]);
      assert once[..n] == MigrateAll(identify, hash, table[..n]);
      assert !NeedsHash(identify, once[n]);
    }
  }
}

=== FILE: ranking.dfy ===
/** Ranking one row of the similarity matrix the way `recommend_anime` does:
    `sorted(enumerate(row), key=score, reverse=True)`. Python's sort is stable
    even with `reverse=True`, so equal scores keep ascending catalog order.
    Scores are abstract ordered values here; how they are computed is outside
    this module. */
module Ranking {
  import opened Seqs

  /** The similarity of the query item to every catalog item, by catalog index. */
  type Row = seq<real>

  predicate ValidIndices(row: Row, r: seq<nat>) {
    forall k :: 0 <= k < |r| ==> r[k] < |row|
  }

  /** Item `a` is ranked ahead of item `b`: a higher score, or an equal score
      and an earlier catalog index. A strict total order on the indices. */
  predicate Before(row: Row, a: nat, b: nat)
    requires a < |row| && b < |row|
  {
    row[a] > row[b] || (row[a] == row[b] && a < b)
  }

  /** Every entry is ranked ahead of every later entry; in particular the
      entries are distinct. */
  predicate Ordered(row: Row, r: seq<nat>)
    requires ValidIndices(row, r)
  {
    forall p, q :: 0 <= p < q < |r| ==> Before(row, r[p], r[q])
  }

  /** `r` lists each catalog index of `row` exactly once. */
  predicate IsPermutation(row: Row, r: seq<nat>) {
    && |r| == |row|
    && ValidIndices(row, r)
    && forall x: nat :: x < |row| ==> x in r
  }

  /** One step of insertion sort: put `i` behind every entry ranked ahead of it. */
  function Insert(row: Row, r: seq<nat>, i: nat): (r': seq<nat>)
    requires ValidIndices(row, r) && i < |row|
    requires Ordered(row, r) && i !in r
    ensures |r'| == |r| + 1
    ensures forall x: nat :: x in r' <==> x in r || x == i
    ensures ValidIndices(row, r')
    ensures Ordered(row, r')
  {
    if r == [] then [i]
    else if Before(row, r[0], i) then
      var rest := Insert(row, r[1..], i);
      assert forall q :: 0 <= q < |rest| ==> Before(row, r[0], rest[q]) by {
        forall q | 0 <= q < |rest|
          ensures Before(row, r[0], rest[q])
        {
          if rest[q] != i {
            assert rest[q] in r[1..];
            var m :| 0 <= m < |r[1..]| && r[1..][m] == rest[q];
            assert r[m + 1] == rest[q];
          }
        }
      }
      [r[0]] + rest
    else
      [i] + r
  }

  /** The ranking of the indices `0 .. n-1`. */
  function RankPrefix(row: Row, n: nat): (r: seq<nat>)
    requires n <= |row|
    ensures |r| == n
    ensures ValidIndices(row, r)
    ensures forall x: nat :: x in r <==> x < n
    ensures Ordered(row, r)
  {
    if n == 0 then [] else Insert(row, RankPrefix(row, n - 1), n - 1)
  }

  /** The full ranking: `sorted(enumerate(row), key=score, reverse=True)`,
      projected to the indices. */
  function Rank(row: Row): (r: seq<nat>)
    ensures IsPermutation(row, r)
    ensures Ordered(row, r)
  {
    RankPrefix(row, |row|)
  }

  /** Once an entry is ranked, the entries after it are exactly the others. */
  lemma TailMembers(row: Row, a: seq<nat>)
    requires ValidIndices(row, a) && Ordered(row, a) && a != []
    ensures forall x: nat :: x in a[1..] <==> x in a && x != a[0]
  {
    forall x: nat | x in a && x != a[0]
      ensures x in a[1..]
    {
      var m :| 0 <= m < |a| && a[m] == x;
      assert a[1..][m - 1] == x;
    }
  }

  /** The position of an entry in a ranking is the first thing it outranks:
      an entry listed after position 0 is outranked by the head. */
  lemma HeadFirst(row: Row, a: seq<nat>, x: nat)
    requires ValidIndices(row, a) && Ordered(row, a)
    requires x in a && a != []
    ensures x == a[0] || Before(row, a[0], x)
  {
    var m :| 0 <= m < |a| && a[m] == x;
    if m > 0 {
      assert Before(row, a[0], a[m]);
    }
  }

  /** Ranking is unique: two orderings of the same indices by `Before` are
      equal. So the stable descending sort has exactly one possible result. */
  lemma {:induction false} OrderedUnique(row: Row, a: seq<nat>, b: seq<nat>)
    requires ValidIndices(row, a) && ValidIndices(row, b)
    requires Ordered(row, a) && Ordered(row, b)
    requires |a| == |b|
    requires forall x: nat :: x in a <==> x in b
    ensures a == b
    decreases |a|
  {
    if a != [] {
      assert a[0] in b && b[0] in a;
      HeadFirst(row, a, b[0]);
      HeadFirst(row, b, a[0]);
      assert a[0] == b[0];
      TailMembers(row, a);
      TailMembers(row, b);
      OrderedUnique(row, a[1..], b[1..]);
      assert a == [a[0]] + a[1..];
      assert b == [b[0]] + b[1..];
    }
  }

  /** Any permutation of the indices sorted by score descending, ties by index
      ascending, is the ranking `Rank` computes. */
  lemma RankCharacterised(row: Row, r: seq<nat>)
    requires IsPermutation(row, r) && Ordered(row, r)
    ensures r == Rank(row)
  {
    OrderedUnique(row, r, Rank(row));
  }

  /** `similarity_scores[1:top_n + 1]`: drop ranked position 0, keep the next
      `top_n`, with Python's slice rules for every integer `top_n`. */
  function Neighbors(row: Row, topN: int): (r: seq<nat>)
    ensures ValidIndices(row, r)
    ensures Ordered(row, r)
    ensures |row| > 0 ==> |r| < |row|
    ensures |row| > 0 ==> forall k :: 0 <= k < |r| ==> r[k] == Rank(row)[k + 1]
  {
    var ranked := Rank(row);
    var r := Slice(ranked, 1, topN + 1);
    assert |row| > 0 ==> SliceBound(1, |ranked|) == 1;
    r
  }

  /** `r` with every occurrence of `x` removed, order kept. */
  function Without(row: Row, r: seq<nat>, x: nat): (r': seq<nat>)
    requires ValidIndices(row, r) && Ordered(row, r)
    ensures ValidIndices(row, r') && Ordered(row, r')
    ensures forall y: nat :: y in r' <==> y in r && y != x
    ensures x in r ==> |r'| == |r| - 1
    ensures x !in r ==> r' == r
  {
    if r == [] then []
    else
      var rest := Without(row, r[1..], x);
      if r[0] == x then rest
      else
        assert forall q :: 0 <= q < |rest| ==> Before(row, r[0], rest[q]) by {
          forall q | 0 <= q < |rest|
            ensures Before(row, r[0], rest[q])
          {
            assert rest[q] in r[1..];
            var m :| 0 <= m < |r[1..]| && r[1..][m] == rest[q];
            assert r[m + 1] == rest[q];
          }
        }
        assert x in r ==> x in r[1..];
        [r[0]] + rest
  }

  /** What `recommend_anime` evidently means to return: the ranking with the
      query item itself taken out, then the first `top_n`, i.e.
      `[s for s in similarity_scores if s[0] != idx][:top_n]`. */
  function NeighborsExcludingQuery(row: Row, idx: nat, topN: int): (r: seq<nat>)
    ensures ValidIndices(row, r) && Ordered(row, r)
    ensures idx !in r
  {
    var r := Slice(Without(row, Rank(row), idx), 0, topN);
    assert forall k :: 0 <= k < |r| ==> r[k] in Without(row, Rank(row), idx);
    r
  }
}

module RankingProperties {
  import opened Seqs
  import opened Ranking

  /** How many results `similarity_scores[1:top_n + 1]` yields: `min(top_n, N-1)`
      for a non-negative `top_n`; Python's negative slice ends give none for
      `top_n == -1` and `N + top_n` for smaller values. */
  lemma NeighborsLength(row: Row, topN: int)
    ensures |row| == 0 ==> Neighbors(row, topN) == []
    ensures |row| > 0 && topN >= 0 ==> |Neighbors(row, topN)| == Min(topN, |row| - 1)
    ensures |row| > 0 && topN == -1 ==> |Neighbors(row, topN)| == 0
    ensures |row| > 0 && topN <= -2 ==> |Neighbors(row, topN)| == Max(0, |row| + topN)
  {
    var ranked := Rank(row);
    assert Neighbors(row, topN) == Slice(ranked, 1, topN + 1);
  }

  /** Returned scores never increase, and equal scores appear in ascending
      catalog order; no index is returned twice. */
  lemma NeighborsSorted(row: Row, topN: int)
    ensures forall p, q :: 0 <= p < q < |Neighbors(row, topN)| ==>
      var r := Neighbors(row, topN);
      && row[r[p]] >= row[r[q]]
      && (row[r[p]] == row[r[q]] ==> r[p] < r[q])
      && r[p] != r[q]
  {
    var r := Neighbors(row, topN);
    forall p, q | 0 <= p < q < |r|
      ensures row[r[p]] >= row[r[q]] && (row[r[p]] == row[r[q]] ==> r[p] < r[q]) && r[p] != r[q]
    {
      assert Before(row, r[p], r[q]);
    }
  }

  /** Every item left out, apart from the dropped top-ranked entry, is ranked
      behind every returned item; in particular its score is no higher than
      the lowest returned score. */
  lemma NeighborsOutrankRest(row: Row, topN: int, j: nat)
    requires j < |row| && j !in Neighbors(row, topN) && j != Rank(row)[0]
    ensures forall k :: 0 <= k < |Neighbors(row, topN)| ==>
      Before(row, Neighbors(row, topN)[k], j) && row[j] <= row[Neighbors(row, topN)[k]]
  {
    var ranked, r := Rank(row), Neighbors(row, topN);
    assert j in ranked;
    var m :| 0 <= m < |ranked| && ranked[m] == j;
    forall k | 1 <= k <= |r|
      ensures ranked[k] != j
    {
      assert r[k - 1] == ranked[k];
    }
    assert m > |r|;
    forall k | 0 <= k < |r|
      ensures Before(row, r[k], j)
    {
      assert r[k] == ranked[k + 1];
    }
  }

  /** Exactly when an item is the head of the ranking: it scores at least as
      much as every item, and strictly more than every earlier one. */
  lemma RankHeadIff(row: Row, x: nat)
    requires x < |row|
    ensures Rank(row)[0] == x <==>
      (forall j :: 0 <= j < |row| ==> row[j] <= row[x]) &&
      (forall j :: 0 <= j < x ==> row[j] < row[x])
  {
    var ranked := Rank(row);
    assert x in ranked;
    if (forall j :: 0 <= j < |row| ==> row[j] <= row[x]) &&
       (forall j :: 0 <= j < x ==> row[j] < row[x]) {
      HeadFirst(row, ranked, x);
    }
    if ranked[0] == x {
      forall j | 0 <= j < |row|
        ensures row[j] <= row[x] && (j < x ==> row[j] < row[x])
      {
        assert j in ranked;
        HeadFirst(row, ranked, j);
      }
    }
  }

  /** When the query item's own score is strictly the row maximum (the usual
      case: self-similarity 1.0), the as-written slice never returns it. */
  lemma StrictMaxNeverReturned(row: Row, idx: nat, topN: int)
    requires idx < |row|
    requires forall j :: 0 <= j < |row| && j != idx ==> row[j] < row[idx]
    ensures idx !in Neighbors(row, topN)
  {
    RankHeadIff(row, idx);
    var ranked, r := Rank(row), Neighbors(row, topN);
    forall k | 0 <= k < |r|
      ensures r[k] != idx
    {
      assert r[k] == ranked[k + 1];
      assert Before(row, ranked[0], ranked[k + 1]);
    }
  }

  /** The corrected neighbours: never the query item, `min(top_n, N-1)` of
      them for a non-negative `top_n`, and every other item left out is ranked
      behind every returned one. */
  lemma ExcludingQueryProperties(row: Row, idx: nat, topN: int)
    requires idx < |row|
    ensures idx !in NeighborsExcludingQuery(row, idx, topN)
    ensures topN >= 0 ==> |NeighborsExcludingQuery(row, idx, topN)| == Min(topN, |row| - 1)
    ensures forall j: nat, k ::
      j < |row| && j != idx && j !in NeighborsExcludingQuery(row, idx, topN) &&
      0 <= k < |NeighborsExcludingQuery(row, idx, topN)| ==>
      Before(row, NeighborsExcludingQuery(row, idx, topN)[k], j)
  {
    var ranked := Rank(row);
    assert idx in ranked;
    var w := Without(row, ranked, idx);
    var r := NeighborsExcludingQuery(row, idx, topN);
    assert r == Slice(w, 0, topN);
    forall j: nat, k | j < |row| && j != idx && j !in r && 0 <= k < |r|
      ensures Before(row, r[k], j)
    {
      assert j in ranked;
      assert j in w;
      var m :| 0 <= m < |w| && w[m] == j;
      assert r[k] == w[k];
      forall q | 0 <= q < |r|
        ensures w[q] != j
      {
        assert r[q] == w[q];
      }
      assert m >= |r|;
    }
  }

  /** When the query item heads the ranking, dropping position 0 and dropping
      the query item coincide, so the source's slice is right in that case. */
  lemma ExcludingQueryAgreesWhenQueryHeads(row: Row, idx: nat, topN: int)
    requires idx < |row| && Rank(row)[0] == idx && topN >= 0
    ensures NeighborsExcludingQuery(row, idx, topN) == Neighbors(row, topN)
  {
    var ranked := Rank(row);
    TailMembers(row, ranked);
    assert ranked == [idx] + ranked[1..];
    assert Without(row, ranked[1..], idx) == ranked[1..];
    assert Without(row, ranked, idx) == ranked[1..];
    var a := NeighborsExcludingQuery(row, idx, topN);
    var b := Neighbors(row, topN);
    NeighborsLength(row, topN);
    assert |a| == |b|;
    forall k | 0 <= k < |a|
      ensures a[k] == b[k]
    {
      assert a[k] == ranked[1..][k];
    }
  }

  /** The as-written slice returns the query item itself when exactly one
      earlier catalog item ties it at the row maximum (for instance two items
      with identical content), and drops that earlier item instead. */
  lemma QueryReturnedWhenTiedEarlier(row: Row, idx: nat, j0: nat, topN: int)
    requires idx < |row| && j0 < idx && row[j0] == row[idx]
    requires forall j :: 0 <= j < |row| && j != j0 && j != idx ==> row[j] < row[idx]
    requires topN >= 1
    ensures idx in Neighbors(row, topN)
    ensures j0 !in Neighbors(row, topN)
  {
    var ranked := Rank(row);
    RankHeadIff(row, j0);
    assert ranked[0] == j0;
    TailMembers(row, ranked);
    var tail := ranked[1..];
    assert idx in tail;
    HeadFirst(row, tail, idx);
    assert tail[0] == idx;
    var r := Neighbors(row, topN);
    NeighborsLength(row, topN);
    assert r[0] == idx;
    forall k | 0 <= k < |r|
      ensures r[k] != j0
    {
      assert r[k] == ranked[k + 1];
      assert Before(row, ranked[0], ranked[k + 1]);
    }
  }

  /** A concrete instance: two items with the same score. Asking for the
      neighbours of item 1 returns item 1 itself; the corrected definition
      returns item 0. */
  lemma TiedQueryExample()
    ensures Neighbors([1.0, 1.0], 5) == [1]
    ensures NeighborsExcludingQuery([1.0, 1.0], 1, 5) == [0]
  {
    QueryReturnedWhenTiedEarlier([1.0, 1.0], 1, 0, 5);
    NeighborsLength([1.0, 1.0], 5);
    ExcludingQueryProperties([1.0, 1.0], 1, 5);
    var r := NeighborsExcludingQuery([1.0, 1.0], 1, 5);
    assert r[0] < 2 && r[0] != 1;
  }

  /** A row in which every item scores the same, as for an item whose text has
      no vocabulary terms (all scores 0): the ranking is catalog order, item 0
      is dropped, and a query item at index `1 .. top_n` is returned to itself. */
  lemma FlatRowReturnsQuery(row: Row, idx: nat, topN: int)
    requires forall j :: 0 <= j < |row| ==> row[j] == row[0]
    requires 1 <= idx < |row| && idx <= topN
    ensures idx in Neighbors(row, topN)
  {
    var ident := seq(|row|, (i: int) requires 0 <= i < |row| => i as nat);
    forall x: nat | x < |row|
      ensures x in ident
    {
      assert ident[x] == x;
    }
    RankCharacterised(row, ident);
    var r := Neighbors(row, topN);
    NeighborsLength(row, topN);
    assert r[idx - 1] == idx;
  }
}

=== FILE: recommender.dfy ===
/** The query path of the anime recommender: the per-item `content` text, the
    display-name index, and `recommend_anime`, which ranks one row of the
    precomputed similarity matrix and projects the chosen rows into result
    records. The similarity matrix is an input: how it is computed from the
    content text is not modelled. */
module Recommender {
  import opened Wrappers
  import opened Seqs
  import opened Ranking

  /** One catalog row. `Genre` and `Description` may be missing (NaN). */
  datatype Item = Item(name: string, genre: Option<string>, description: Option<string>)

  type Catalog = seq<Item>

  /** The similarity matrix as loaded or computed at start-up; nothing checks
      its dimensions against the catalog. */
  type Matrix = seq<Row>

  /** One output record: `{Anime, Genre, Similarity Score}`. The genre is the
      catalog's own column, so a missing genre stays missing. */
  datatype Recommendation = Recommendation(anime: string, genre: Option<string>, score: real)

  /** Indexing past the end of the catalog or of the matrix. */
  datatype LookupError = IndexError

  /** The text the vectoriser reads: genre and description joined by one
      space, each missing field read as the empty string. */
  function Content(it: Item): (c: string)
    ensures var g, d := it.genre.GetOr(""), it.description.GetOr("");
      && |c| == |g| + 1 + |d|
      && c[..|g|] == g
      && c[|g|] == ' '
      && c[|g| + 1..] == d
  {
    it.genre.GetOr("") + " " + it.description.GetOr("")
  }

  predicate UniqueNames(catalog: Catalog) {
    forall i, j :: 0 <= i < j < |catalog| ==> catalog[i].name != catalog[j].name
  }

  /** The matrix matches the catalog: square, one row and column per item. */
  predicate Consistent(catalog: Catalog, sim: Matrix) {
    && |sim| == |catalog|
    && forall i :: 0 <= i < |sim| ==> |sim[i]| == |catalog|
  }

  /** `anime_index[name]`: the catalog position carrying that display name. */
  function Lookup(catalog: Catalog, name: string): (r: Option<nat>)
    requires UniqueNames(catalog)
    ensures r.Some? ==> r.value < |catalog|
    ensures forall i :: 0 <= i < |catalog| ==> (catalog[i].name == name <==> r == Some(i))
    ensures r.None? <==> forall i :: 0 <= i < |catalog| ==> catalog[i].name != name
  {
    FirstIndex(catalog, (it: Item) => it.name == name)
  }

  /** The record the loop of `recommend_anime` builds for catalog row `i`. */
  function Record(catalog: Catalog, row: Row, i: nat): Recommendation
    requires i < |catalog| && i < |row|
  {
    Recommendation(catalog[i].name, catalog[i].genre, row[i])
  }

  /** The result-building loop: one record per chosen index, in ranked order;
      the first index past the end of the catalog raises. */
  function Project(catalog: Catalog, row: Row, chosen: seq<nat>): (r: Result<seq<Recommendation>, LookupError>)
    requires ValidIndices(row, chosen)
    ensures r.Ok? <==> forall k :: 0 <= k < |chosen| ==> chosen[k] < |catalog|
    ensures r.Ok? ==> |r.value| == |chosen|
    ensures r.Ok? ==> forall k :: 0 <= k < |chosen| ==>
      && r.value[k].anime == catalog[chosen[k]].name
      && r.value[k].genre == catalog[chosen[k]].genre
      && r.value[k].score == row[chosen[k]]
  {
    if chosen == [] then Ok([])
    else if chosen[0] >= |catalog| then Err(IndexError)
    else
      match Project(catalog, row, chosen[1..])
      case Err(e) => Err(e)
      case Ok(rest) => Ok([Record(catalog, row, chosen[0])] + rest)
  }

  /** `recommend_anime(anime_name, top_n)` as written: an unknown name gives an
      empty result; otherwise rank the query's row, drop ranked position 0,
      keep the next `top_n`, and project. */
  function Recommend(catalog: Catalog, sim: Matrix, name: string, topN: int): (r: Result<seq<Recommendation>, LookupError>)
    requires UniqueNames(catalog)
    ensures (forall i :: 0 <= i < |catalog| ==> catalog[i].name != name) ==> r == Ok([])
    ensures Consistent(catalog, sim) ==> r.Ok?
    ensures r.Err? ==> exists i :: 0 <= i < |catalog| && catalog[i].name == name
  {
    match Lookup(catalog, name)
    case None => Ok([])
    case Some(idx) =>
      if idx >= |sim| then Err(IndexError)
      else
        var chosen := Neighbors(sim[idx], topN);
        assert Consistent(catalog, sim) ==> forall k :: 0 <= k < |chosen| ==> chosen[k] < |catalog|;
        Project(catalog, sim[idx], chosen)
  }

  /** The corrected query: the same, but leaving out the query item itself
      rather than whatever ranks first. */
  function RecommendExcludingQuery(catalog: Catalog, sim: Matrix, name: string, topN: int): (r: Result<seq<Recommendation>, LookupError>)
    requires UniqueNames(catalog)
    ensures (forall i :: 0 <= i < |catalog| ==> catalog[i].name != name) ==> r == Ok([])
    ensures Consistent(catalog, sim) ==> r.Ok?
    ensures r.Err? ==> exists i :: 0 <= i < |catalog| && catalog[i].name == name
  {
    match Lookup(catalog, name)
    case None => Ok([])
    case Some(idx) =>
      if idx >= |sim| then Err(IndexError)
      else
        var chosen := NeighborsExcludingQuery(sim[idx], idx, topN);
        assert Consistent(catalog, sim) ==> forall k :: 0 <= k < |chosen| ==> chosen[k] < |catalog|;
        Project(catalog, sim[idx], chosen)
  }
}

module RecommenderProperties {
  import opened Wrappers
  import opened Seqs
  import opened Ranking
  import opened RankingProperties
  import opened Recommender

  /** Nothing checks the loaded matrix against the catalog: a matrix with too
      few rows for the query item (a stale artifact) makes the query raise. */
  lemma StaleMatrixRaises(catalog: Catalog, sim: Matrix, idx: nat, topN: int)
    requires UniqueNames(catalog) && idx < |catalog| && |sim| <= idx
    ensures Recommend(catalog, sim, catalog[idx].name, topN) == Err(IndexError)
  {
    assert Lookup(catalog, catalog[idx].name) == Some(idx);
  }

  /** The shape of a successful query for a known item with a non-negative
      `top_n`: `min(top_n, N-1)` records, scores non-increasing, equal scores
      in catalog order, and record `k` built entirely from the catalog row of
      the `k`-th returned neighbour, whose score it reports. */
  lemma RecommendRanked(catalog: Catalog, sim: Matrix, idx: nat, topN: int)
    requires UniqueNames(catalog) && Consistent(catalog, sim)
    requires idx < |catalog| && topN >= 0
    ensures var r := Recommend(catalog, sim, catalog[idx].name, topN);
      var nb := Neighbors(sim[idx], topN);
      && r.Ok?
      && |r.value| == |nb| == Min(topN, |catalog| - 1)
      && (forall k :: 0 <= k < |nb| ==> r.value[k] == Record(catalog, sim[idx], nb[k]))
      && (forall p, q :: 0 <= p < q < |nb| ==> r.value[p].score >= r.value[q].score)
      && (forall p, q :: 0 <= p < q < |nb| && r.value[p].score == r.value[q].score ==> nb[p] < nb[q])
  {
    var row := sim[idx];
    var nb := Neighbors(row, topN);
    assert Lookup(catalog, catalog[idx].name) == Some(idx);
    assert forall k :: 0 <= k < |nb| ==> nb[k] < |catalog|;
    NeighborsLength(row, topN);
    NeighborsSorted(row, topN);
  }

  /** When the query item's self-similarity is strictly the largest score in
      its row, no returned record names the query item. */
  lemma RecommendOmitsStrictMaxQuery(catalog: Catalog, sim: Matrix, idx: nat, topN: int)
    requires UniqueNames(catalog) && Consistent(catalog, sim) && idx < |catalog|
    requires forall j :: 0 <= j < |catalog| && j != idx ==> sim[idx][j] < sim[idx][idx]
    ensures var r := Recommend(catalog, sim, catalog[idx].name, topN);
      r.Ok? && forall k :: 0 <= k < |r.value| ==> r.value[k].anime != catalog[idx].name
  {
    var row := sim[idx];
    var nb := Neighbors(row, topN);
    assert Lookup(catalog, catalog[idx].name) == Some(idx);
    assert forall k :: 0 <= k < |nb| ==> nb[k] < |catalog|;
    StrictMaxNeverReturned(row, idx, topN);
    assert forall k :: 0 <= k < |nb| ==> nb[k] != idx;
  }

  /** The corrected query never names the query item, whatever the scores,
      and returns `min(top_n, N-1)` records in ranked order. */
  lemma RecommendExcludingQueryRanked(catalog: Catalog, sim: Matrix, idx: nat, topN: int)
    requires UniqueNames(catalog) && Consistent(catalog, sim)
    requires idx < |catalog| && topN >= 0
    ensures var r := RecommendExcludingQuery(catalog, sim, catalog[idx].name, topN);
      && r.Ok?
      && |r.value| == Min(topN, |catalog| - 1)
      && (forall k :: 0 <= k < |r.value| ==> r.value[k].anime != catalog[idx].name)
      && (forall p, q :: 0 <= p < q < |r.value| ==> r.value[p].score >= r.value[q].score)
  {
    var row := sim[idx];
    var nb := NeighborsExcludingQuery(row, idx, topN);
    assert Lookup(catalog, catalog[idx].name) == Some(idx);
    assert forall k :: 0 <= k < |nb| ==> nb[k] < |catalog|;
    ExcludingQueryProperties(row, idx, topN);
    forall p, q | 0 <= p < q < |nb|
      ensures row[nb[p]] >= row[nb[q]]
    {
      assert Before(row, nb[p], nb[q]);
    }
  }

  /** A catalog of two items with identical content, each scoring 1.0 against
      the other: asking for the second returns the second itself. */
  lemma DuplicateContentExample()
    ensures var catalog := [Item("A", Some("action"), None), Item("B", Some("action"), None)];
      var sim := [[1.0, 1.0], [1.0, 1.0]];
      && Recommend(catalog, sim, "B", 5) == Ok([Recommendation("B", Some("action"), 1.0)])
      && RecommendExcludingQuery(catalog, sim, "B", 5) == Ok([Recommendation("A", Some("action"), 1.0)])
  {
    var catalog := [Item("A", Some("action"), None), Item("B", Some("action"), None)];
    var sim := [[1.0, 1.0], [1.0, 1.0]];
    assert Lookup(catalog, "B") == Some(1);
    assert sim[1] == [1.0, 1.0];
    TiedQueryExample();
    assert [1][1..] == [] && [0][1..] == [];
    assert Project(catalog, sim[1], [1]) == Ok([Record(catalog, sim[1], 1)] + []);
    assert Project(catalog, sim[1], [0]) == Ok([Record(catalog, sim[1], 0)] + []);
    assert [Record(catalog, sim[1], 1)] + [] == [Recommendation("B", Some("action"), 1.0)];
    assert [Record(catalog, sim[1], 0)] + [] == [Recommendation("A", Some("action"), 1.0)];
  }
}

=== FILE: seqs.dfy ===
/** Sequence operations with Python's semantics. */
module Seqs {
  import opened Wrappers

  function Min(a: int, b: int): int { if a <= b then a else b }

  function Max(a: int, b: int): int { if a <= b then b else a }

  /** How Python normalises one bound of `s[start:stop]` for a sequence of
      length `len`: a negative bound counts from the end, and the result is
      clamped into `0..len`. */
  function SliceBound(i: int, len: nat): (b: nat)
    ensures b <= len
    ensures 0 <= i ==> b == Min(i, len)
    ensures i < 0 ==> b == Max(0, len + i)
  {
    if i < 0 then (if len + i < 0 then 0 else len + i)
    else if i > len then len
    else i
  }

  /** Python's `s[start:stop]`: never fails, whatever the bounds. */
  function Slice<T>(s: seq<T>, start: int, stop: int): (r: seq<T>)
    ensures var a, b := SliceBound(start, |s|), SliceBound(stop, |s|);
      && |r| == (if a < b then b - a else 0)
      && forall k :: 0 <= k < |r| ==> r[k] == s[a + k]
  {
    var a, b := SliceBound(start, |s|), SliceBound(stop, |s|);
    if a < b then s[a..b] else []
  }

  /** The first position at or after `from` whose element satisfies `p`,
      the way a table scan or a linear name search finds it. */
  function FirstIndexFrom<T>(s: seq<T>, p: T -> bool, from: nat): (r: Option<nat>)
    requires from <= |s|
    ensures r.Some? ==> from <= r.value < |s| && p(s[r.value])
    ensures r.Some? ==> forall j :: from <= j < r.value ==> !p(s[j])
    ensures r.None? <==> forall j :: from <= j < |s| ==> !p(s[j])
    decreases |s| - from
  {
    if from == |s| then None
    else if p(s[from]) then Some(from)
    else FirstIndexFrom(s, p, from + 1)
  }

  function FirstIndex<T>(s: seq<T>, p: T -> bool): (r: Option<nat>)
    ensures r.Some? ==> r.value < |s| && p(s[r.value])
    ensures r.Some? ==> forall j :: 0 <= j < r.value ==> !p(s[j])
    ensures r.None? <==> forall j :: 0 <= j < |s| ==> !p(s[j])
  {
    FirstIndexFrom(s, p, 0)
  }
}

=== FILE: wrappers.dfy ===
/** Optional values and error-carrying results, standing in for Python's `None`
    and for exceptions that escape a call. */
module Wrappers {

  datatype Option<+T> = None | Some(value: T) {

    /** The wrapped value, or `default` when there is none (pandas' `fillna`). */
    function GetOr(default: T): T {
      match this
      case Some(v) => v
      case None => default
    }
  }

  datatype Result<+T, +E> = Ok(value: T) | Err(error: E)
}
